=== FILE: README.md ===
# create_lmdb_dataset, modelled in Dafny

This project models `utils/create_lmdb_dataset.py`, the tool that packs an OCR
dataset into an LMDB store. It reads a manifest (a ground-truth file whose
lines hold an image path, one space, and a label). It estimates the LMDB map
size from the image file sizes. It then walks the manifest and keeps every
line whose image exists, loads, and (when `checkValid` is set) passes the
validity check. Each kept sample goes under the keys `image-%09d` and
`label-%09d`, numbered by a counter that starts at 1. The cache is written
every time the counter reaches a multiple of 1000. At the end, `num-samples`
and the remaining cache go in one last write. Lines whose validity check
raises are logged with their 0-based manifest index.

The model is functional:

- `Manifest` parses a line the way `strip("\n").split(" ")` does. It relies
  on `Text` (Python's `strip`, `split` and `join`), `Numerals` (`str(n)` and
  `%09d`) and `Encoding` (UTF-8 `str.encode()`).
- `Paths` stands in for `os.path.join`.
- `Validity` models `checkImageIsValid`, with the decoder given as a
  function.
- `Observe` classifies one manifest line against an environment of oracle
  functions. The oracles are file existence, file size, image loading and
  decoding.
- `Estimate` models `estimate_map_size`.
- `Keys` and `Store` model the key schema and `writeCache`.
- `Ingest` is the counter/cache/flush loop, written as a fold (`Step`/`Run`)
  over the observed lines. It is compared with an independent reference:
  `Records`, the accepted samples in manifest order, and `Segment`, the
  entries they should produce.
- `IngestLoop` writes the two loops of the program with their early
  `continue`s and proves them equal to the fold.
- `Scenarios` holds concrete manifests.

## Model

| member | source | states |
|---|---|---|
| Manifest.ParseLineSplit | utils/create_lmdb_dataset.py:87-88 | The path holds no space. If the newline-stripped line holds a space, then path + " " + label is exactly that line; otherwise the path is the whole stripped line and the label is empty. |
| Manifest.ParseLineOfEntry | utils/create_lmdb_dataset.py:87-88 | A space-free, newline-free path (possibly empty, as for a line starting with a space) and a newline-free label, written as `path label\n`, parse back to exactly that path and label. Spaces inside the label are kept. |
| Text.Strip | utils/create_lmdb_dataset.py:52 | `strip(c)` returns a contiguous slice of the line with only `c` outside it, and the result neither starts nor ends with `c`. |
| Text.Split | utils/create_lmdb_dataset.py:52 | `split(sep)` yields at least one piece, and no piece contains the separator. |
| Text.JoinSplit | utils/create_lmdb_dataset.py:88 | Joining the pieces of a split with the same separator gives back the original string. |
| Text.SplitJoin | utils/create_lmdb_dataset.py:88 | Splitting the join of separator-free pieces gives back those pieces. |
| Paths.JoinPath | utils/create_lmdb_dataset.py:89 | `os.path.join`: an absolute second part replaces the first; an empty first part gives the second part unchanged; otherwise the result is the first part, then exactly one `/` (only added when the first part does not already end in one), then the second part. |
| Validity.CheckImageIsValid | utils/create_lmdb_dataset.py:13-24 | Returns true exactly when bytes are present, the decoder yields an image, and both dimensions are non-zero. It raises exactly when the decoder raises on present bytes. |
| Observe.Classify | utils/create_lmdb_dataset.py:91-110 | A line is accepted iff its file exists, it loads, and (with checking on) the check returns true. An accepted line carries the loaded bytes. The check-raised outcome occurs iff checking is on and the check raised on a loaded image. Missing occurs iff the file does not exist. |
| Observe.EstimateMapSize | utils/create_lmdb_dataset.py:45-60 | The estimate for a manifest is at least 140 per line (in the integer model of the 1.4 factor). |
| Estimate.TotalSize | utils/create_lmdb_dataset.py:51-57 | The running total is at least 100 per line. |
| Estimate.TotalSizeMonotone | utils/create_lmdb_dataset.py:51-57 | Larger, or newly present, image files never lower the total. |
| Estimate.ScaleStrictlyMonotone | utils/create_lmdb_dataset.py:60 | The scaling by 1.4 strictly increases with the total. |
| Estimate.EstimateMonotone | utils/create_lmdb_dataset.py:45-60 | The map-size estimate never drops when files grow or appear. |
| Estimate.EstimateBounds | utils/create_lmdb_dataset.py:45-60 | At least 140 per line, and 0 for an empty manifest: no minimum map size is enforced. |
| Estimate.TotalSizeDoubled | utils/create_lmdb_dataset.py:51-57 | When at least one present file is non-empty, doubling every file size strictly increases the total. |
| Estimate.EstimateDoubled | utils/create_lmdb_dataset.py:45-60 | When at least one present file is non-empty, doubling every file size strictly increases the map-size estimate. |
| IngestLoop.SumSizes | utils/create_lmdb_dataset.py:47-57 | The summing loop of `estimate_map_size` computes the reference total over all lines. |
| IngestLoop.RunLoop | utils/create_lmdb_dataset.py:86-122 | The ingestion loop, with its `continue`s, leaves exactly the state of the reference fold over the whole manifest. |
| Keys.KeyBytesInjective | utils/create_lmdb_dataset.py:112-113 | Two keys have the same bytes exactly when they are the same key: image and label keys of different counters, and `num-samples`, never collide, even past 10^9. |
| Keys.KeyLength | utils/create_lmdb_dataset.py:112-113 | Below 10^9 the image and label keys are 15 bytes long. |
| Keys.KeyTextIsAscii | utils/create_lmdb_dataset.py:112-113 | Every key is ASCII, so its UTF-8 bytes are its characters. |
| Numerals.Decimal | utils/create_lmdb_dataset.py:125-126 | `str(n)` is a non-empty digit string with no leading zero unless n is 0. |
| Numerals.ValueOfDecimal | utils/create_lmdb_dataset.py:125-126 | The `num-samples` numeral reads back as the number written. |
| Numerals.ZeroPadded | utils/create_lmdb_dataset.py:112-113 | `%09d` gives digits only and at least nine characters. |
| Numerals.ValueOfZeroPadded | utils/create_lmdb_dataset.py:112-113 | Zero padding keeps the number denoted. |
| Numerals.ZeroPaddedInjective | utils/create_lmdb_dataset.py:112-113 | Distinct counters get distinct padded numerals. |
| Numerals.ZeroPaddedExactWidth | utils/create_lmdb_dataset.py:112-113 | A counter below 10^9 is written with exactly nine digits. |
| Encoding.EncodeChar | utils/create_lmdb_dataset.py:115 | UTF-8 gives one to four bytes per character, one byte exactly for ASCII, equal to its code. The lead byte announces the length (below 0x80: 1, 0xC0-0xDF: 2, 0xE0-0xEF: 3, 0xF0-0xF7: 4), every further byte is a continuation byte (0x80-0xBF), and the payload bits give back the character's scalar value. |
| Encoding.EncodeCharInjective | utils/create_lmdb_dataset.py:115 | Two characters have the same UTF-8 bytes exactly when they are the same character. |
| Encoding.EncodeInjective | utils/create_lmdb_dataset.py:115 | Two strings encode alike exactly when they are equal, so distinct labels, non-ASCII ones included, are stored as distinct bytes. |
| Encoding.EncodeAscii | utils/create_lmdb_dataset.py:112-113 | An ASCII string encodes to its own character codes. |
| Encoding.EncodeAsciiInjective | utils/create_lmdb_dataset.py:112-113 | Two ASCII strings encode alike exactly when they are equal. |
| Store.WriteCache | utils/create_lmdb_dataset.py:27-31 | Writing a cache keeps every old key and adds the cache's keys. Cache values overwrite, and other stored values are kept. |
| Store.ByteStoreWriteCache | utils/create_lmdb_dataset.py:27-31 | Writing at the key level is the same as writing the cache's byte keys into the byte-keyed store. |
| Store.ByteStore | utils/create_lmdb_dataset.py:29-31 | The byte-keyed view has one entry per key, under that key's bytes, with the same value. |
| Filters.Positions | utils/create_lmdb_dataset.py:86-110 | The indices of the lines that pass a test, strictly increasing, each passing, and all passing ones listed. |
| Ingest.Run | utils/create_lmdb_dataset.py:80-122 | The counter stays between 1 and one more than the number of lines seen. |
| Ingest.IngestInvariant | utils/create_lmdb_dataset.py:79-122 | After any prefix of the manifest:<br>the counter is N + 1 for N accepted lines;<br>there have been N / 1000 flushes, the j-th holding exactly samples 1000j+1 .. 1000j+1000;<br>the cache holds the samples since the last flush;<br>the store is the initial store plus the flushed samples, and equals writing the batches in order. |
| Ingest.InvAccept | utils/create_lmdb_dataset.py:112-122 | Accepting one more line keeps the invariant, with and without a flush. |
| Ingest.InvFlush | utils/create_lmdb_dataset.py:117-119 | A flush at a multiple of 1000 writes exactly the last thousand samples and empties the cache. |
| Ingest.LogInvariant | utils/create_lmdb_dataset.py:106-110 | The lines logged so far are the reference error log of the prefix. |
| Ingest.CounterCountsAccepted | utils/create_lmdb_dataset.py:80-122 | The counter is one more than the number of accepted lines; rejected lines never move it. |
| Ingest.PeriodicBatchSizes | utils/create_lmdb_dataset.py:117-119 | There are N / 1000 periodic flushes, each of exactly 2000 entries. |
| Ingest.StepEffects | utils/create_lmdb_dataset.py:91-122 | On one line:<br>the counter moves by one exactly when the line is accepted;<br>a flush happens exactly when the line is accepted and the accepted count reaches a multiple of 1000;<br>a flush writes 2000 entries and leaves the cache empty;<br>otherwise the batches are unchanged. |
| Ingest.CacheContents | utils/create_lmdb_dataset.py:114-119 | The cache holds 2 (N % 1000) entries and never the count key. |
| Ingest.FinalStore | utils/create_lmdb_dataset.py:124-127 | The final store is the initial store plus every sample's two entries, plus `num-samples` set to str(N). |
| Ingest.FinalStoreValues | utils/create_lmdb_dataset.py:112-127 | The k-th accepted item is stored under image-k and label-k, for k = 1 .. N, and `num-samples` holds str(N). |
| Ingest.FinalStoreKeys | utils/create_lmdb_dataset.py:112-127 | The store gains no key but image-k and label-k for k = 1 .. N and `num-samples`. |
| Ingest.FlushBatches | utils/create_lmdb_dataset.py:117-127 | With N accepted lines:<br>there are N / 1000 + 1 writes;<br>the first N / 1000 hold 2000 entries each;<br>the last holds 2 (N % 1000) + 1 entries, including `num-samples`;<br>applying them in order gives the final store, so no sample is lost or written twice. |
| Ingest.ErrorLogItems | utils/create_lmdb_dataset.py:106-110 | One log line per item whose check raised, in order, naming its index and path. |
| Ingest.SamplesFollowManifest | utils/create_lmdb_dataset.py:86-115 | The k-th accepted manifest line, k = 1 .. N with no gap, is stored under image-k with its loaded bytes and under label-k with its encoded label. |
| Ingest.AcceptedLines | utils/create_lmdb_dataset.py:91-110 | The counters go to exactly the accepted lines, in manifest order. |
| Ingest.StoreKeysFollowManifest | utils/create_lmdb_dataset.py:112-127 | A key is in the final store iff it was in the initial store, is `num-samples`, or is image-k/label-k for some k in 1 .. N. |
| Ingest.KeysBeyondCount | utils/create_lmdb_dataset.py:112-113 | Sample keys numbered above N are in the final store exactly when they were in the initial one. |
| Ingest.AllLinesAccepted | utils/create_lmdb_dataset.py:86-122 | When every line is accepted, every line gets a counter. |
| Ingest.CountRecord | utils/create_lmdb_dataset.py:125-126 | `num-samples` holds str(N).encode() for N accepted lines, and reads back as N. |
| Ingest.ErrorLogLines | utils/create_lmdb_dataset.py:106-110 | The error log has one line per raising manifest line, only with checking on. Each line reads `<i>-th image data caused error: <path>` with the 0-based manifest index, not the counter. |
| Ingest.RaisingLines | utils/create_lmdb_dataset.py:101-110 | The logged lines are exactly the raising lines, in manifest order. |
| Scenarios.FirstKeys | utils/create_lmdb_dataset.py:112-113 | The first sample's keys are `image-000000001` and `label-000000001`. |
| Scenarios.LabelWithSpaces | utils/create_lmdb_dataset.py:87-88 | `w.png a  b` parses to path `w.png` and label `a  b`, double space kept. |
| Scenarios.SkippedLineLeavesNoGap | utils/create_lmdb_dataset.py:91-126 | Of three lines with the middle one rejected:<br>the first is sample 1 and the third is sample 2;<br>`num-samples` is "2";<br>no image-3 is added. |
| Scenarios.AllAccepted | utils/create_lmdb_dataset.py:125-126 | With every line accepted, `num-samples` is the number of lines. |
| Scenarios.ThousandSamples | utils/create_lmdb_dataset.py:117-127 | With 1000 accepted lines there is one flush of 2000 entries, then a final write holding only `num-samples`. |

## Left out

- Estimate.Scale: `int(total_size * 1.4)` is a double multiplication followed by truncation. The model uses the exact `total * 14 / 10`, which can be one above the program's value; for example, 45 * 1.4 is 62.99999999999999, giving 62, not 63. Totals above 2^53 also lose precision in the program, and the model does not follow that.
- Estimate.EstimateBounds: the bound of 140 per line holds for the integer model only. The program can give 140·L − 1; for seven lines whose files are all missing, it gives int(979.9999999999999) = 979.
- Observe.EstimateMapSize: carries the same integer-model bound, so the same gap applies.
- The file system is one snapshot. The estimator (lines 54-55) and the loop (line 91) see the same existence and size answers, although the program asks twice at different times.
- Image loading (Pillow's re-encode to PNG without an ICC profile, lines 34-42) and OpenCV decoding (line 18) are pure functions of the path or the bytes. A load that raises is `None`. A decoder result is: raised, no image, or an image with its dimensions.
- The manifest is taken as the already decoded output of `readlines()`. UTF-8 decode errors and universal-newline translation are not modelled.
- Fatal errors are not modelled:
  - opening the manifest (lines 48 and 82);
  - `os.makedirs` (line 73);
  - `lmdb.open` (line 77);
  - a failed commit or an LMDB `MapFullError` inside `writeCache` (lines 29-31).
  The map size is recorded in the result but never enforced.
- Console output is not modelled: the missing-file, load-error and invalid-image messages, and the progress and summary lines (lines 92, 98, 104, 107, 120, 128).
- The error log is the sequence of lines this run appends to `error_image_log.txt`. Lines already in that file are not modelled.
- The `fire` command line (line 132) is not modelled. `checkValid`'s default of true (line 63) is not modelled either: it is an explicit field of the configuration.
- The initial store is a map over the key schema (image-k, label-k, num-samples). An existing LMDB at `outputPath` may hold any other byte key; such keys are not modelled.
- Characters are Dafny `char`s. Encoding a lone surrogate, which Python's `str.encode()` rejects, is not modelled.
- The program does not filter blank lines. A blank line is classified like any other: its image path is the empty name joined to the input directory.
- The branch of `checkImageIsValid` for a missing image (line 15) cannot be reached from the loop, which passes only loaded bytes. It is modelled, but the loop never takes it.
- The "Add 20% buffer" comment (line 59) disagrees with the factor 1.4 in the code. The model follows the code.

=== FILE: encoding.dfy ===
/** Bytes and the UTF-8 encoding performed by Python's `str.encode()`. */
module Encoding {

  type byte = x: int | 0 <= x < 256

  type Bytes = seq<byte>

  predicate IsAscii(s: string) {
    forall k :: 0 <= k < |s| ==> s[k] as int < 128
  }

  /** The length of a UTF-8 sequence as its lead byte announces it, or 0 for
      a byte that cannot lead one. */
  function SequenceLength(lead: byte): nat {
    if lead < 0x80 then 1
    else if 0xC0 <= lead < 0xE0 then 2
    else if 0xE0 <= lead < 0xF0 then 3
    else if 0xF0 <= lead < 0xF8 then 4
    else 0
  }

  predicate IsContinuation(b: byte) {
    0x80 <= b < 0xC0
  }

  /** The scalar value a UTF-8 sequence carries: the lead byte's payload
      bits, followed by six bits from each continuation byte. */
  function DecodeChar(r: Bytes): int {
    if |r| == 1 then r[0]
    else if |r| == 2 then Payload(r[0], 0xC0) * 64 + Payload(r[1], 0x80)
    else if |r| == 3 then
      Payload(r[0], 0xE0) * 4096 + Payload(r[1], 0x80) * 64 + Payload(r[2], 0x80)
    else if |r| == 4 then
      Payload(r[0], 0xF0) * 262144 + Payload(r[1], 0x80) * 4096
      + Payload(r[2], 0x80) * 64 + Payload(r[3], 0x80)
    else 0
  }

  /** The bits of `b` below the fixed prefix `tag`. */
  function Payload(b: byte, tag: int): int {
    b as int - tag
  }

  lemma TwoBytes(cp: int)
    requires 0x80 <= cp < 0x800
    ensures 0xC0 <= 0xC0 + cp / 64 < 0xE0 && 0 <= cp % 64 < 64
    ensures (cp / 64) * 64 + cp % 64 == cp
  {
  }

  lemma ThreeBytes(cp: int)
    requires 0x800 <= cp < 0x10000
    ensures 0xE0 <= 0xE0 + cp / 4096 < 0xF0
    ensures 0 <= (cp / 64) % 64 < 64 && 0 <= cp % 64 < 64
    ensures (cp / 4096) * 4096 + ((cp / 64) % 64) * 64 + cp % 64 == cp
  {
    var q := cp / 64;
    assert q * 64 + cp % 64 == cp;
    assert (q / 64) * 64 + q % 64 == q;
    assert cp / 4096 == q / 64;
  }

  lemma FourBytes(cp: int)
    requires 0x10000 <= cp < 0x110000
    ensures 0xF0 <= 0xF0 + cp / 262144 < 0xF8
    ensures 0 <= (cp / 4096) % 64 < 64 && 0 <= (cp / 64) % 64 < 64 && 0 <= cp % 64 < 64
    ensures (cp / 262144) * 262144 + ((cp / 4096) % 64) * 4096 + ((cp / 64) % 64) * 64 + cp % 64 == cp
  {
    var q := cp / 64;
    assert q * 64 + cp % 64 == cp;
    var q2 := q / 64;
    assert q2 * 64 + q % 64 == q;
    assert cp / 4096 == q2;
    assert (q2 / 64) * 64 + q2 % 64 == q2;
    assert cp / 262144 == q2 / 64;
  }

  /** UTF-8 encoding of one Unicode scalar value: the lead byte announces the
      length, the other bytes are continuation bytes, and the payload bits
      give back the scalar value. */
  function EncodeChar(c: char): (r: Bytes)
    ensures 1 <= |r| <= 4
    ensures |r| == 1 <==> c as int < 128
    ensures c as int < 128 ==> r == [c as int]
    ensures SequenceLength(r[0]) == |r|
    ensures forall k :: 1 <= k < |r| ==> IsContinuation(r[k])
    ensures DecodeChar(r) == c as int
  {
    var cp := c as int;
    if cp < 0x80 then [cp]
    else if cp < 0x800 then
      TwoBytes(cp);
      [0xC0 + cp / 64, 0x80 + cp % 64]
    else if cp < 0x10000 then
      ThreeBytes(cp);
      [0xE0 + cp / 4096, 0x80 + (cp / 64) % 64, 0x80 + cp % 64]
    else
      FourBytes(cp);
      [0xF0 + cp / 262144, 0x80 + (cp / 4096) % 64, 0x80 + (cp / 64) % 64, 0x80 + cp % 64]
  }

  /** Distinct characters have distinct encodings. */
  lemma EncodeCharInjective(a: char, b: char)
    ensures EncodeChar(a) == EncodeChar(b) <==> a == b
  {
    if EncodeChar(a) == EncodeChar(b) {
      assert a as int == DecodeChar(EncodeChar(a)) == b as int;
    }
  }

  /** The lead byte fixes where one character's encoding ends, so a byte
      string starting with two encodings splits the same way after both. */
  lemma LeadFixesLength(a: char, b: char, s: Bytes, t: Bytes)
    requires EncodeChar(a) + s == EncodeChar(b) + t
    ensures a == b && s == t
  {
    var ra, rb := EncodeChar(a), EncodeChar(b);
    assert ra[0] == (ra + s)[0] == (rb + t)[0] == rb[0];
    assert |ra| == |rb|;
    assert ra == (ra + s)[..|ra|] == (rb + t)[..|rb|] == rb;
    EncodeCharInjective(a, b);
    assert s == (ra + s)[|ra|..] == (rb + t)[|rb|..] == t;
  }

  /** `s.encode()`: the concatenation of the characters' UTF-8 encodings. */
  function Encode(s: string): (r: Bytes)
    ensures |r| >= |s|
    decreases |s|
  {
    if |s| == 0 then [] else EncodeChar(s[0]) + Encode(s[1..])
  }

  /** Distinct strings encode to distinct byte strings: UTF-8 loses nothing. */
  lemma {:induction false} EncodeInjective(a: string, b: string)
    ensures Encode(a) == Encode(b) <==> a == b
    decreases |a|
  {
    if Encode(a) == Encode(b) && |a| > 0 && |b| > 0 {
      LeadFixesLength(a[0], b[0], Encode(a[1..]), Encode(b[1..]));
      EncodeInjective(a[1..], b[1..]);
      assert a == [a[0]] + a[1..] && b == [b[0]] + b[1..];
    }
  }

  /** On ASCII text the encoding is one byte per character, the code point itself. */
  lemma {:induction false} EncodeAscii(s: string)
    requires IsAscii(s)
    ensures |Encode(s)| == |s|
    ensures forall k :: 0 <= k < |s| ==> Encode(s)[k] == s[k] as int
    decreases |s|
  {
    if |s| > 0 {
      EncodeAscii(s[1..]);
    }
  }

  /** Distinct ASCII strings encode to distinct byte strings. */
  lemma EncodeAsciiInjective(a: string, b: string)
    requires IsAscii(a) && IsAscii(b)
    ensures Encode(a) == Encode(b) <==> a == b
  {
    EncodeAscii(a);
    EncodeAscii(b);
    if Encode(a) == Encode(b) {
      assert |a| == |b|;
      forall k | 0 <= k < |a|
        ensures a[k] == b[k]
      {
        assert a[k] as int == Encode(a)[k] == b[k] as int;
      }
    }
  }
}

=== FILE: estimate.dfy ===
/** `estimate_map_size` over abstract probes: per manifest line, whether the
    image file exists and, if it does, its size in bytes. */
module Estimate {

  datatype Probe = Probe(present: bool, size: nat)

  const PerLineOverhead: nat := 100

  /** What one line adds to the running total. */
  function Contribution(p: Probe): nat {
    (if p.present then p.size else 0) + PerLineOverhead
  }

  function TotalSize(probes: seq<Probe>): (t: nat)
    ensures t >= PerLineOverhead * |probes|
    decreases |probes|
  {
    if |probes| == 0 then 0
    else TotalSize(probes[..|probes| - 1]) + Contribution(probes[|probes| - 1])
  }

  /** Summing one more line adds its contribution. */
  lemma TotalSizeSnoc(probes: seq<Probe>, i: nat)
    requires i < |probes|
    ensures TotalSize(probes[..i + 1]) == TotalSize(probes[..i]) + Contribution(probes[i])
  {
    assert probes[..i + 1][..i] == probes[..i];
  }

  /** `int(total * 1.4)` stood in for by the integer `total * 14 / 10`;
      the floating-point product can fall just below the exact one (45 * 1.4
      is 62.99999999999999), so the program's value can be one less. */
  function Scale(total: nat): nat {
    total * 14 / 10
  }

  function EstimateFromProbes(probes: seq<Probe>): nat {
    Scale(TotalSize(probes))
  }

  /** `q` dominates `p`: line by line, an image present in `p` is present in
      `q` and at least as large. */
  ghost predicate Dominates(q: seq<Probe>, p: seq<Probe>) {
    |p| == |q| &&
    forall i :: 0 <= i < |p| ==> p[i].present ==> q[i].present && p[i].size <= q[i].size
  }

  lemma {:induction false} TotalSizeMonotone(p: seq<Probe>, q: seq<Probe>)
    requires Dominates(q, p)
    ensures TotalSize(p) <= TotalSize(q)
    decreases |p|
  {
    if |p| > 0 {
      var n := |p| - 1;
      assert Dominates(q[..n], p[..n]);
      TotalSizeMonotone(p[..n], q[..n]);
      assert Contribution(p[n]) <= Contribution(q[n]);
    }
  }

  /** The scaling never decreases, and strictly increases with the total,
      since 1.4 exceeds 1. */
  lemma ScaleStrictlyMonotone(a: nat, b: nat)
    requires a < b
    ensures Scale(a) < Scale(b)
  {
    assert b * 14 >= a * 14 + 14;
  }

  /** The estimate is monotone: larger or newly present images never lower it. */
  lemma EstimateMonotone(p: seq<Probe>, q: seq<Probe>)
    requires Dominates(q, p)
    ensures EstimateFromProbes(p) <= EstimateFromProbes(q)
  {
    TotalSizeMonotone(p, q);
    if TotalSize(p) < TotalSize(q) {
      ScaleStrictlyMonotone(TotalSize(p), TotalSize(q));
    }
  }

  /** In the integer model every line costs at least 140 bytes of estimate,
      and an empty manifest gives 0: no floor is enforced. (With the
      floating-point product the program can give one byte less.) */
  lemma EstimateBounds(probes: seq<Probe>)
    ensures EstimateFromProbes(probes) >= 140 * |probes|
    ensures |probes| == 0 ==> EstimateFromProbes(probes) == 0
  {
    var t := TotalSize(probes);
    assert t * 14 >= 1400 * |probes|;
  }

  function Doubled(probes: seq<Probe>): (d: seq<Probe>)
    ensures |d| == |probes|
    ensures forall i :: 0 <= i < |d| ==> d[i] == probes[i].(size := 2 * probes[i].size)
  {
    seq(|probes|, i requires 0 <= i < |probes| => probes[i].(size := 2 * probes[i].size))
  }

  lemma {:induction false} TotalSizeDoubled(probes: seq<Probe>, j: nat)
    requires j < |probes| && probes[j].present && probes[j].size > 0
    ensures TotalSize(Doubled(probes)) > TotalSize(probes)
    decreases |probes|
  {
    var n := |probes| - 1;
    var d := Doubled(probes);
    assert d[..n] == Doubled(probes[..n]);
    assert Dominates(Doubled(probes[..n]), probes[..n]);
    TotalSizeMonotone(probes[..n], Doubled(probes[..n]));
    if j < n {
      TotalSizeDoubled(probes[..n], j);
    }
  }

  /** Doubling every image size with at least one present non-empty image
      strictly increases the estimate. */
  lemma EstimateDoubled(probes: seq<Probe>, j: nat)
    requires j < |probes| && probes[j].present && probes[j].size > 0
    ensures EstimateFromProbes(Doubled(probes)) > EstimateFromProbes(probes)
  {
    TotalSizeDoubled(probes, j);
    ScaleStrictlyMonotone(TotalSize(probes), TotalSize(Doubled(probes)));
  }
}

=== FILE: filters.dfy ===
/** The positions in a sequence whose elements satisfy a test, in order. */
module Filters {

  /** `r` lists, in increasing order and without repetition, exactly the
      indices `i` of `xs` with `p(xs[i])`. */
  function Positions<T>(xs: seq<T>, p: T -> bool): (r: seq<nat>)
    ensures |r| <= |xs|
    ensures forall k :: 0 <= k < |r| ==> r[k] < |xs| && p(xs[r[k]])
    ensures forall k, l :: 0 <= k < l < |r| ==> r[k] < r[l]
    ensures forall i :: 0 <= i < |xs| && p(xs[i]) ==> i in r
    decreases |xs|
  {
    if |xs| == 0 then []
    else
      var n := |xs| - 1;
      Positions(xs[..n], p) + (if p(xs[n]) then [n] else [])
  }

  /** Looking at one more element appends its index when it passes. */
  lemma PositionsSnoc<T>(xs: seq<T>, i: nat, p: T -> bool)
    requires i < |xs|
    ensures Positions(xs[..i + 1], p) == Positions(xs[..i], p) + (if p(xs[i]) then [i] else [])
  {
    assert xs[..i + 1][..i] == xs[..i];
  }

  /** When every element passes, every index is listed. */
  lemma {:induction false} PositionsAll<T>(xs: seq<T>, p: T -> bool)
    requires forall i :: 0 <= i < |xs| ==> p(xs[i])
    ensures |Positions(xs, p)| == |xs|
    decreases |xs|
  {
    if |xs| > 0 {
      PositionsAll(xs[..|xs| - 1], p);
    }
  }
}

=== FILE: ingest.dfy ===
/** `createDataset`: the counter, cache and flush logic of the ingestion
    loop, as a pure fold over the observed manifest lines. */
module Ingest {
  import opened Encoding
  import opened Numerals
  import opened Keys
  import opened Store
  import opened Manifest
  import opened Observe
  import opened Filters

  /** An accepted sample: the normalized image bytes and its label. */
  datatype Record = Record(image: Bytes, labelText: string)

  predicate IsAccepted(item: Item) {
    item.verdict.Accepted?
  }

  predicate IsRaised(item: Item) {
    item.verdict.CheckRaised?
  }

  /** Manifest indices of the accepted entries, in manifest order. */
  function AcceptedPositions(items: seq<Item>): seq<nat> {
    Positions(items, IsAccepted)
  }

  /** Manifest indices of the entries whose validity check raised. */
  function ErrorPositions(items: seq<Item>): seq<nat> {
    Positions(items, IsRaised)
  }

  function RecordOf(item: Item): Record
    requires item.verdict.Accepted?
  {
    Record(item.verdict.image, item.labelText)
  }

  /** The accepted records in manifest order: the reference the store is
      compared with. */
  function Records(items: seq<Item>): seq<Record> {
    var idx := AcceptedPositions(items);
    seq(|idx|, k requires 0 <= k < |idx| => RecordOf(items[idx[k]]))
  }

  /** The line appended to `error_image_log.txt`: it names the manifest
      index, not the counter. */
  function LogLine(i: nat, path: string): string {
    Decimal(i) + "-th image data caused error: " + path + "\n"
  }

  /** The reference error log: one line per raising entry, in manifest order. */
  function ErrorLog(items: seq<Item>): seq<string> {
    var idx := ErrorPositions(items);
    seq(|idx|, k requires 0 <= k < |idx| => LogLine(idx[k], items[idx[k]].fullPath))
  }

  /** The store entries of records `lo+1 .. hi` (1-based counters): image and
      encoded label under their counter's keys. */
  function Segment(recs: seq<Record>, lo: nat, hi: nat): Store
    requires lo <= hi <= |recs|
    decreases hi
  {
    if hi == lo then map[]
    else Segment(recs, lo, hi - 1)[ImageKey(hi) := recs[hi - 1].image]
                                  [LabelKey(hi) := Encode(recs[hi - 1].labelText)]
  }

  /** Loop state: the counter, the cache, the batches flushed so far, the
      store, and the lines appended to the error log. */
  datatype State = State(cnt: nat, cache: Store, batches: seq<Store>, store: Store, log: seq<string>)

  function Init(store0: Store): State {
    State(1, map[], [], store0, [])
  }

  /** One iteration, for manifest line `i`. */
  function Step(st: State, i: nat, item: Item): State {
    match item.verdict
    case Accepted(bin) =>
      var cache := st.cache[ImageKey(st.cnt) := bin][LabelKey(st.cnt) := Encode(item.labelText)];
      if st.cnt % 1000 == 0 then
        st.(cnt := st.cnt + 1, cache := map[], batches := st.batches + [cache], store := WriteCache(st.store, cache))
      else
        st.(cnt := st.cnt + 1, cache := cache)
    case CheckRaised =>
      st.(log := st.log + [LogLine(i, item.fullPath)])
    case _ => st
  }

  /** The state after the loop has gone through `items`. */
  function Run(items: seq<Item>, store0: Store): (st: State)
    ensures 1 <= st.cnt <= |items| + 1
    decreases |items|
  {
    if |items| == 0 then Init(store0)
    else Step(Run(items[..|items| - 1], store0), |items| - 1, items[|items| - 1])
  }

  /** What a run leaves behind: the map size the store was opened with, the
      store, every write transaction in order (the last one is the final
      write with the count record), and the error-log lines. */
  datatype Dataset = Dataset(mapSize: nat, store: Store, flushes: seq<Store>, log: seq<string>)

  /** After the loop: the count record joins the cache and the cache is
      written. */
  function Finish(mapSize: nat, st: State): Dataset
    requires st.cnt >= 1
  {
    var last := st.cache[NumSamplesKey := Encode(Decimal(st.cnt - 1))];
    Dataset(mapSize, WriteCache(st.store, last), st.batches + [last], st.log)
  }

  function CreateDataset(cfg: Config, lines: seq<string>, store0: Store): Dataset {
    IngestItems(ObserveAll(cfg, lines), store0, EstimateMapSize(cfg, lines))
  }

  // ---------------------------------------------------------------------
  // Segments of the reference store

  lemma {:induction false} SegmentKeys(recs: seq<Record>, lo: nat, hi: nat)
    requires lo <= hi <= |recs|
    ensures forall key :: key in Segment(recs, lo, hi) <==>
              exists k :: lo < k <= hi && (key == ImageKey(k) || key == LabelKey(k))
    decreases hi
  {
    if hi > lo {
      SegmentKeys(recs, lo, hi - 1);
    }
  }

  lemma {:induction false} SegmentValues(recs: seq<Record>, lo: nat, hi: nat)
    requires lo <= hi <= |recs|
    ensures forall k :: lo < k <= hi ==>
              && ImageKey(k) in Segment(recs, lo, hi)
              && Segment(recs, lo, hi)[ImageKey(k)] == recs[k - 1].image
              && LabelKey(k) in Segment(recs, lo, hi)
              && Segment(recs, lo, hi)[LabelKey(k)] == Encode(recs[k - 1].labelText)
    decreases hi
  {
    if hi > lo {
      SegmentValues(recs, lo, hi - 1);
    }
  }

  /** No key of a segment is the count key, and keys outside the counter
      range are absent. */
  lemma SegmentExcludes(recs: seq<Record>, lo: nat, hi: nat, n: nat)
    requires lo <= hi <= |recs|
    requires n <= lo || hi < n
    ensures NumSamplesKey !in Segment(recs, lo, hi)
    ensures ImageKey(n) !in Segment(recs, lo, hi) && LabelKey(n) !in Segment(recs, lo, hi)
  {
    SegmentKeys(recs, lo, hi);
  }

  /** One more record adds two fresh entries. */
  lemma SegmentGrows(recs: seq<Record>, lo: nat, hi: nat)
    requires lo < hi <= |recs|
    ensures |Segment(recs, lo, hi)| == |Segment(recs, lo, hi - 1)| + 2
  {
    var s := Segment(recs, lo, hi - 1);
    SegmentExcludes(recs, lo, hi - 1, hi);
    var s1 := s[ImageKey(hi) := recs[hi - 1].image];
    assert |s1| == |s| + 1;
    assert LabelKey(hi) !in s1;
  }

  /** A segment holds exactly two entries per record. */
  lemma {:induction false} SegmentSize(recs: seq<Record>, lo: nat, hi: nat)
    requires lo <= hi <= |recs|
    ensures |Segment(recs, lo, hi)| == 2 * (hi - lo)
    decreases hi
  {
    if hi > lo {
      SegmentSize(recs, lo, hi - 1);
      SegmentGrows(recs, lo, hi);
    }
  }

  lemma {:induction false} SegmentPrefix(recs: seq<Record>, recs': seq<Record>, lo: nat, hi: nat)
    requires lo <= hi <= |recs| && hi <= |recs'|
    requires recs[..hi] == recs'[..hi]
    ensures Segment(recs, lo, hi) == Segment(recs', lo, hi)
    decreases hi
  {
    if hi > lo {
      assert recs[hi - 1] == recs[..hi][hi - 1] == recs'[..hi][hi - 1] == recs'[hi - 1];
      assert recs[..hi - 1] == recs[..hi][..hi - 1];
      assert recs'[..hi - 1] == recs'[..hi][..hi - 1];
      SegmentPrefix(recs, recs', lo, hi - 1);
    }
  }

  lemma {:induction false} SegmentConcat(recs: seq<Record>, lo: nat, mid: nat, hi: nat)
    requires lo <= mid <= hi <= |recs|
    ensures Segment(recs, lo, mid) + Segment(recs, mid, hi) == Segment(recs, lo, hi)
    decreases hi
  {
    if hi == mid {
      assert Segment(recs, lo, mid) + map[] == Segment(recs, lo, mid);
    } else {
      SegmentConcat(recs, lo, mid, hi - 1);
    }
  }

  lemma UnionAssoc(a: Store, b: Store, c: Store)
    ensures (a + b) + c == a + (b + c)
  {
  }

  // ---------------------------------------------------------------------
  // How the references grow by one line

  lemma RecordsSnoc(items: seq<Item>)
    requires |items| > 0
    ensures var n := |items| - 1;
            Records(items) ==
              Records(items[..n]) + (if items[n].verdict.Accepted? then [RecordOf(items[n])] else [])
  {
    var n := |items| - 1;
    var pre := items[..n];
    var idx := AcceptedPositions(pre);
    assert AcceptedPositions(items) == idx + (if IsAccepted(items[n]) then [n] else []);
    var r := Records(items);
    var r0 := Records(pre);
    forall k | 0 <= k < |idx|
      ensures r[k] == r0[k]
    {
      assert items[idx[k]] == pre[idx[k]];
    }
  }

  lemma ErrorLogSnoc(items: seq<Item>)
    requires |items| > 0
    ensures var n := |items| - 1;
            ErrorLog(items) ==
              ErrorLog(items[..n]) + (if items[n].verdict.CheckRaised? then [LogLine(n, items[n].fullPath)] else [])
  {
    var n := |items| - 1;
    var pre := items[..n];
    var idx := ErrorPositions(pre);
    assert ErrorPositions(items) == idx + (if IsRaised(items[n]) then [n] else []);
    var r := ErrorLog(items);
    var r0 := ErrorLog(pre);
    forall k | 0 <= k < |idx|
      ensures r[k] == r0[k]
    {
      assert items[idx[k]] == pre[idx[k]];
    }
  }

  // ---------------------------------------------------------------------
  // The loop invariant

  /** The state after `N = |recs|` accepted records: the counter is `N + 1`;
      there were `N / 1000` flushes, the `j`-th holding exactly records
      `1000 j + 1 .. 1000 j + 1000`; the cache holds the records since the
      last flush; the store is the initial store with the flushed records and
      equals the batches written in order. */
  ghost predicate Inv(st: State, recs: seq<Record>, store0: Store) {
    var n := |recs|;
    && st.cnt == n + 1
    && st.cache == Segment(recs, n / 1000 * 1000, n)
    && |st.batches| == n / 1000
    && (forall j :: 0 <= j < n / 1000 ==> st.batches[j] == Segment(recs, 1000 * j, 1000 * j + 1000))
    && st.store == store0 + Segment(recs, 0, n / 1000 * 1000)
    && st.store == WriteAll(store0, st.batches)
  }

  lemma InvInit(store0: Store)
    ensures Inv(Init(store0), [], store0)
  {
    assert store0 + map[] == store0;
  }

  /** The invariant's facts about `recs`, restated of `recs` plus one more
      record, before the step that stores it; `q` is the number of flushes. */
  lemma InvGrow(st: State, recs: seq<Record>, store0: Store, r: Record, q: nat)
    requires Inv(st, recs, store0)
    requires q == |recs| / 1000
    ensures var recs' := recs + [r];
            var n := |recs|;
            && 1000 * q <= n < 1000 * q + 1000
            && st.cnt == n + 1
            && Segment(recs', 1000 * q, n + 1) ==
                 st.cache[ImageKey(st.cnt) := r.image][LabelKey(st.cnt) := Encode(r.labelText)]
            && |st.batches| == q
            && (forall j :: 0 <= j < q ==> st.batches[j] == Segment(recs', 1000 * j, 1000 * j + 1000))
            && st.store == store0 + Segment(recs', 0, 1000 * q)
            && st.store == WriteAll(store0, st.batches)
  {
    var recs' := recs + [r];
    var n := |recs|;
    DivBounds(n, q);
    assert recs'[..n] == recs;
    SegmentPrefix(recs, recs', 1000 * q, n);
    assert recs'[n] == r;
    assert Segment(recs', 1000 * q, n + 1) ==
      Segment(recs', 1000 * q, n)[ImageKey(n + 1) := r.image][LabelKey(n + 1) := Encode(r.labelText)];
    SegmentPrefix(recs, recs', 0, 1000 * q);
    forall j | 0 <= j < q
      ensures st.batches[j] == Segment(recs', 1000 * j, 1000 * j + 1000)
    {
      SegmentPrefix(recs, recs', 1000 * j, 1000 * j + 1000);
    }
  }

  lemma DivBounds(n: nat, q: nat)
    requires q == n / 1000
    ensures 1000 * q <= n < 1000 * q + 1000
    ensures n / 1000 * 1000 == 1000 * q
  {
  }

  lemma DivNext(n: nat)
    ensures (n + 1) % 1000 == 0 ==> n + 1 == 1000 * (n / 1000) + 1000
    ensures (n + 1) % 1000 != 0 ==> n + 1 < 1000 * (n / 1000) + 1000
  {
  }

  /** Accepting one more record keeps the invariant. */
  lemma InvAccept(st: State, recs: seq<Record>, store0: Store, i: nat, item: Item)
    requires Inv(st, recs, store0)
    requires item.verdict.Accepted?
    ensures Inv(Step(st, i, item), recs + [RecordOf(item)], store0)
  {
    var recs' := recs + [RecordOf(item)];
    var n := |recs|;
    var q := n / 1000;
    InvGrow(st, recs, store0, RecordOf(item), q);
    var cache := Segment(recs', 1000 * q, n + 1);
    DivNext(n);
    if st.cnt % 1000 == 0 {
      assert Step(st, i, item) ==
        st.(cnt := st.cnt + 1, cache := map[], batches := st.batches + [cache], store := WriteCache(st.store, cache));
      InvFlush(st, recs', store0, cache, q);
    } else {
      assert Step(st, i, item) == st.(cnt := st.cnt + 1, cache := cache);
      InvKeep(st, recs', store0, cache, q);
    }
  }

  /** Caching without a flush keeps the invariant. */
  lemma InvKeep(st: State, recs': seq<Record>, store0: Store, cache: Store, q: nat)
    requires 1000 * q < |recs'| < 1000 * q + 1000
    requires st.cnt == |recs'|
    requires cache == Segment(recs', 1000 * q, |recs'|)
    requires |st.batches| == q
    requires forall j :: 0 <= j < q ==> st.batches[j] == Segment(recs', 1000 * j, 1000 * j + 1000)
    requires st.store == store0 + Segment(recs', 0, 1000 * q)
    requires st.store == WriteAll(store0, st.batches)
    ensures Inv(st.(cnt := st.cnt + 1, cache := cache), recs', store0)
  {
    assert |recs'| / 1000 == q;
  }

  lemma DivExact(q: nat)
    ensures (1000 * q + 1000) / 1000 == q + 1
    ensures (1000 * q + 1000) / 1000 * 1000 == 1000 * q + 1000
  {
  }

  /** The flushed batch is the next thousand records. */
  lemma FlushedBatches(batches: seq<Store>, recs': seq<Record>, cache: Store, q: nat)
    requires |recs'| == 1000 * q + 1000
    requires cache == Segment(recs', 1000 * q, |recs'|)
    requires |batches| == q
    requires forall j :: 0 <= j < q ==> batches[j] == Segment(recs', 1000 * j, 1000 * j + 1000)
    ensures forall j :: 0 <= j < q + 1 ==>
              (batches + [cache])[j] == Segment(recs', 1000 * j, 1000 * j + 1000)
  {
    var bs := batches + [cache];
    assert bs[q] == Segment(recs', 1000 * q, 1000 * q + 1000);
    forall j | 0 <= j < q + 1
      ensures bs[j] == Segment(recs', 1000 * j, 1000 * j + 1000)
    {
      if j < q {
        assert bs[j] == batches[j];
      }
    }
  }

  /** Writing the flushed batch extends the store by it. */
  lemma FlushedStore(store: Store, store0: Store, batches: seq<Store>, recs': seq<Record>, cache: Store, q: nat)
    requires |recs'| == 1000 * q + 1000
    requires cache == Segment(recs', 1000 * q, |recs'|)
    requires store == store0 + Segment(recs', 0, 1000 * q)
    requires store == WriteAll(store0, batches)
    ensures WriteCache(store, cache) == store0 + Segment(recs', 0, |recs'|)
    ensures WriteAll(store0, batches + [cache]) == WriteCache(store, cache)
  {
    SegmentConcat(recs', 0, 1000 * q, |recs'|);
    UnionAssoc(store0, Segment(recs', 0, 1000 * q), cache);
    var bs := batches + [cache];
    assert bs[..|bs| - 1] == batches;
  }

  /** A periodic flush keeps the invariant. */
  lemma InvFlush(st: State, recs': seq<Record>, store0: Store, cache: Store, q: nat)
    requires |recs'| == 1000 * q + 1000
    requires st.cnt == |recs'|
    requires cache == Segment(recs', 1000 * q, |recs'|)
    requires |st.batches| == q
    requires forall j :: 0 <= j < q ==> st.batches[j] == Segment(recs', 1000 * j, 1000 * j + 1000)
    requires st.store == store0 + Segment(recs', 0, 1000 * q)
    requires st.store == WriteAll(store0, st.batches)
    ensures Inv(st.(cnt := st.cnt + 1, cache := map[], batches := st.batches + [cache], store := WriteCache(st.store, cache)),
                recs', store0)
  {
    var n := |recs'|;
    DivExact(q);
    FlushedBatches(st.batches, recs', cache, q);
    FlushedStore(st.store, store0, st.batches, recs', cache, q);
    assert Segment(recs', n, n) == map[];
  }

  /** After any prefix of the manifest the invariant holds of the accepted
      records so far. */
  lemma {:induction false} IngestInvariant(items: seq<Item>, store0: Store)
    ensures Inv(Run(items, store0), Records(items), store0)
    decreases |items|
  {
    if |items| == 0 {
      InvInit(store0);
    } else {
      var m := |items| - 1;
      var pre := items[..m];
      var item := items[m];
      IngestInvariant(pre, store0);
      RecordsSnoc(items);
      var st := Run(pre, store0);
      assert Run(items, store0) == Step(st, m, item);
      if item.verdict.Accepted? {
        InvAccept(st, Records(pre), store0, m, item);
      } else {
        assert Records(items) == Records(pre);
        assert Step(st, m, item).(log := st.log) == st;
      }
    }
  }

  /** The error log has one line per raising entry, in manifest order. */
  lemma {:induction false} LogInvariant(items: seq<Item>, store0: Store)
    ensures Run(items, store0).log == ErrorLog(items)
    decreases |items|
  {
    if |items| > 0 {
      var m := |items| - 1;
      LogInvariant(items[..m], store0);
      ErrorLogSnoc(items);
    }
  }

  /** The counter is one more than the number of accepted entries. */
  lemma CounterCountsAccepted(items: seq<Item>, store0: Store)
    ensures Run(items, store0).cnt == |AcceptedPositions(items)| + 1
  {
    IngestInvariant(items, store0);
  }

  /** There have been `N / 1000` periodic flushes of exactly 2000 entries. */
  lemma PeriodicBatchSizes(items: seq<Item>, store0: Store)
    ensures var st := Run(items, store0);
            && |st.batches| == |AcceptedPositions(items)| / 1000
            && forall j :: 0 <= j < |st.batches| ==> |st.batches[j]| == 2000
  {
    IngestInvariant(items, store0);
    var st := Run(items, store0);
    var recs := Records(items);
    forall j | 0 <= j < |st.batches|
      ensures |st.batches[j]| == 2000
    {
      SegmentSize(recs, 1000 * j, 1000 * j + 1000);
    }
  }

  /** Consuming item `i`: the counter moves by one exactly when the entry is
      accepted; a periodic flush happens exactly when the accepted count then
      reaches a multiple of 1000, and it leaves the cache empty after writing
      2000 entries; otherwise no batch is written. */
  lemma StepEffects(items: seq<Item>, i: nat, store0: Store)
    requires i < |items|
    ensures var before := Run(items[..i], store0);
            var after := Run(items[..i + 1], store0);
            var accepted := items[i].verdict.Accepted?;
            var n := |AcceptedPositions(items[..i + 1])|;
            && after.cnt == before.cnt + (if accepted then 1 else 0)
            && (|after.batches| == |before.batches| + 1 <==> accepted && n % 1000 == 0)
            && (|after.batches| != |before.batches| + 1 ==> after.batches == before.batches)
            && (|after.batches| == |before.batches| + 1 ==>
                  after.cache == map[] && |after.batches[|before.batches|]| == 2000)
  {
    var pre := items[..i + 1];
    assert pre[..i] == items[..i];
    assert pre[i] == items[i];
    var before := Run(items[..i], store0);
    assert Run(pre, store0) == Step(before, i, items[i]);
    CounterCountsAccepted(items[..i], store0);
    CounterCountsAccepted(pre, store0);
    PeriodicBatchSizes(pre, store0);
  }

  // ---------------------------------------------------------------------
  // Properties of a whole run

  /** The run over observed items, ending with the final write. */
  function IngestItems(items: seq<Item>, store0: Store, mapSize: nat): Dataset {
    Finish(mapSize, Run(items, store0))
  }

  /** Store and cache together hold the initial store and every accepted
      record so far. */
  lemma StoreWithCache(items: seq<Item>, store0: Store)
    ensures var st := Run(items, store0);
            var recs := Records(items);
            st.store + st.cache == store0 + Segment(recs, 0, |recs|)
  {
    var recs := Records(items);
    var n := |recs|;
    IngestInvariant(items, store0);
    var st := Run(items, store0);
    SegmentConcat(recs, 0, n / 1000 * 1000, n);
    UnionAssoc(store0, Segment(recs, 0, n / 1000 * 1000), st.cache);
  }

  lemma UnionUpdate(a: Store, b: Store, k: Key, v: Bytes)
    ensures a + b[k := v] == (a + b)[k := v]
  {
  }

  /** The final store is the initial store, plus image and label of every
      accepted record under its counter's keys, plus the count record. */
  lemma FinalStore(items: seq<Item>, store0: Store, mapSize: nat)
    ensures var recs := Records(items);
            IngestItems(items, store0, mapSize).store ==
              (store0 + Segment(recs, 0, |recs|))[NumSamplesKey := Encode(Decimal(|recs|))]
  {
    var st := Run(items, store0);
    StoreWithCache(items, store0);
    CounterCountsAccepted(items, store0);
    UnionUpdate(st.store, st.cache, NumSamplesKey, Encode(Decimal(st.cnt - 1)));
  }

  /** The k-th accepted item is stored under `image-k` and `label-k`, for
      k = 1 .. N with no gap, and `num-samples` holds the decimal numeral of
      N. */
  lemma FinalStoreValues(items: seq<Item>, store0: Store, mapSize: nat)
    ensures var d := IngestItems(items, store0, mapSize);
            var idx := AcceptedPositions(items);
            && (forall k :: 1 <= k <= |idx| ==>
                  && ImageKey(k) in d.store
                  && d.store[ImageKey(k)] == items[idx[k - 1]].verdict.image
                  && LabelKey(k) in d.store
                  && d.store[LabelKey(k)] == Encode(items[idx[k - 1]].labelText))
            && NumSamplesKey in d.store
            && d.store[NumSamplesKey] == Encode(Decimal(|idx|))
  {
    var recs := Records(items);
    var idx := AcceptedPositions(items);
    var seg := Segment(recs, 0, |recs|);
    FinalStore(items, store0, mapSize);
    SegmentValues(recs, 0, |recs|);
    forall j | 0 <= j < |idx|
      ensures recs[j] == RecordOf(items[idx[j]])
    {
    }
  }

  /** The store gains no key other than `image-k` and `label-k` for
      k = 1 .. N and `num-samples`. */
  lemma FinalStoreKeys(items: seq<Item>, store0: Store, mapSize: nat)
    ensures var d := IngestItems(items, store0, mapSize);
            var n := |AcceptedPositions(items)|;
            forall key :: key in d.store <==>
              key in store0 || key == NumSamplesKey
              || exists k :: 1 <= k <= n && (key == ImageKey(k) || key == LabelKey(k))
  {
    var recs := Records(items);
    FinalStore(items, store0, mapSize);
    SegmentKeys(recs, 0, |recs|);
  }

  /** The cache holds the `N % 1000` records since the last flush, and never
      the count key. */
  lemma CacheContents(items: seq<Item>, store0: Store)
    ensures var st := Run(items, store0);
            var n := |AcceptedPositions(items)|;
            |st.cache| == 2 * (n % 1000) && NumSamplesKey !in st.cache
  {
    var recs := Records(items);
    var n := |recs|;
    IngestInvariant(items, store0);
    SegmentSize(recs, n / 1000 * 1000, n);
    SegmentExcludes(recs, n / 1000 * 1000, n, 0);
  }

  lemma StoreIsWrittenBatches(items: seq<Item>, store0: Store)
    ensures Run(items, store0).store == WriteAll(store0, Run(items, store0).batches)
  {
    IngestInvariant(items, store0);
  }

  /** With N accepted items there are N / 1000 periodic flushes of exactly
      2000 entries each, then one final write of the 2 (N % 1000) remaining
      entries and the count record; writing all of them in order gives the
      final store. */
  lemma FlushBatches(items: seq<Item>, store0: Store, mapSize: nat)
    ensures var d := IngestItems(items, store0, mapSize);
            var n := |AcceptedPositions(items)|;
            && |d.flushes| == n / 1000 + 1
            && (forall j :: 0 <= j < n / 1000 ==> |d.flushes[j]| == 2000)
            && |d.flushes[n / 1000]| == 2 * (n % 1000) + 1
            && NumSamplesKey in d.flushes[n / 1000]
            && WriteAll(store0, d.flushes) == d.store
  {
    PeriodicBatchSizes(items, store0);
    CacheContents(items, store0);
    StoreIsWrittenBatches(items, store0);
    var st := Run(items, store0);
    var d := IngestItems(items, store0, mapSize);
    assert d.flushes[..|d.flushes| - 1] == st.batches;
  }

  /** The log has one line per item whose validity check raised, in order,
      each naming the item's 0-based index and resolved path. */
  lemma ErrorLogItems(items: seq<Item>, store0: Store, mapSize: nat)
    ensures var d := IngestItems(items, store0, mapSize);
            var idx := ErrorPositions(items);
            && |d.log| == |idx|
            && (forall k :: 0 <= k < |idx| ==>
                  && idx[k] < |items|
                  && items[idx[k]].verdict.CheckRaised?
                  && d.log[k] == LogLine(idx[k], items[idx[k]].fullPath))
            && (forall i :: 0 <= i < |items| && items[i].verdict.CheckRaised? ==> i in idx)
            && (forall k, l :: 0 <= k < l < |idx| ==> idx[k] < idx[l])
  {
    LogInvariant(items, store0);
    forall i | 0 <= i < |items| && items[i].verdict.CheckRaised?
      ensures IsRaised(items[i])
    {
    }
  }

  // ---------------------------------------------------------------------
  // The same, stated of the manifest lines

  lemma CreateDatasetIsIngestItems(cfg: Config, lines: seq<string>, store0: Store)
    ensures CreateDataset(cfg, lines, store0) ==
              IngestItems(ObserveAll(cfg, lines), store0, EstimateMapSize(cfg, lines))
  {
  }

  /** The k-th accepted line of the manifest is stored under `image-k` and
      `label-k`, for k = 1 .. N with no gap: its image bytes and its encoded
      label. */
  lemma SamplesFollowManifest(cfg: Config, lines: seq<string>, store0: Store)
    ensures var d := CreateDataset(cfg, lines, store0);
            var idx := AcceptedPositions(ObserveAll(cfg, lines));
            forall k :: 1 <= k <= |idx| ==>
              && idx[k - 1] < |lines|
              && Classify(cfg, lines[idx[k - 1]]).Accepted?
              && ImageKey(k) in d.store
              && d.store[ImageKey(k)] == Classify(cfg, lines[idx[k - 1]]).image
              && LabelKey(k) in d.store
              && d.store[LabelKey(k)] == Encode(ParseLine(lines[idx[k - 1]]).labelText)
  {
    var items := ObserveAll(cfg, lines);
    FinalStoreValues(items, store0, EstimateMapSize(cfg, lines));
  }

  /** The counters are handed out to exactly the accepted lines, in
      manifest order. */
  lemma AcceptedLines(cfg: Config, lines: seq<string>)
    ensures var idx := AcceptedPositions(ObserveAll(cfg, lines));
            && (forall k :: 0 <= k < |idx| ==> idx[k] < |lines| && Classify(cfg, lines[idx[k]]).Accepted?)
            && (forall i :: 0 <= i < |lines| && Classify(cfg, lines[i]).Accepted? ==> i in idx)
            && (forall k, l :: 0 <= k < l < |idx| ==> idx[k] < idx[l])
  {
    var items := ObserveAll(cfg, lines);
    forall i | 0 <= i < |lines| && Classify(cfg, lines[i]).Accepted?
      ensures IsAccepted(items[i])
    {
    }
  }

  /** The store gains no other key than `image-k` and `label-k` for
      k = 1 .. N, and `num-samples`. */
  lemma StoreKeysFollowManifest(cfg: Config, lines: seq<string>, store0: Store)
    ensures var d := CreateDataset(cfg, lines, store0);
            var n := |AcceptedPositions(ObserveAll(cfg, lines))|;
            forall key :: key in d.store <==>
              key in store0 || key == NumSamplesKey
              || exists k :: 1 <= k <= n && (key == ImageKey(k) || key == LabelKey(k))
  {
    FinalStoreKeys(ObserveAll(cfg, lines), store0, EstimateMapSize(cfg, lines));
  }

  /** Sample keys beyond the count are present exactly when the initial
      store had them. */
  lemma KeysBeyondCount(cfg: Config, lines: seq<string>, store0: Store, m: nat)
    requires m > |AcceptedPositions(ObserveAll(cfg, lines))|
    ensures var d := CreateDataset(cfg, lines, store0);
            && (ImageKey(m) in d.store <==> ImageKey(m) in store0)
            && (LabelKey(m) in d.store <==> LabelKey(m) in store0)
  {
    StoreBeyondCount(ObserveAll(cfg, lines), store0, EstimateMapSize(cfg, lines), m);
  }

  lemma StoreBeyondCount(items: seq<Item>, store0: Store, mapSize: nat, m: nat)
    requires m > |AcceptedPositions(items)|
    ensures var st := IngestItems(items, store0, mapSize).store;
            && (ImageKey(m) in st <==> ImageKey(m) in store0)
            && (LabelKey(m) in st <==> LabelKey(m) in store0)
  {
    var recs := Records(items);
    FinalStore(items, store0, mapSize);
    SegmentExcludes(recs, 0, |recs|, m);
  }

  /** When every line is accepted, every line gets a counter. */
  lemma AllLinesAccepted(cfg: Config, lines: seq<string>)
    requires forall i :: 0 <= i < |lines| ==> Classify(cfg, lines[i]).Accepted?
    ensures |AcceptedPositions(ObserveAll(cfg, lines))| == |lines|
  {
    var items := ObserveAll(cfg, lines);
    forall i | 0 <= i < |items|
      ensures IsAccepted(items[i])
    {
      assert items[i].verdict == Classify(cfg, lines[i]);
    }
    PositionsAll(items, IsAccepted);
  }

  /** `num-samples` holds the decimal numeral of the number N of accepted
      lines, and it reads back as N. */
  lemma CountRecord(cfg: Config, lines: seq<string>, store0: Store)
    ensures var d := CreateDataset(cfg, lines, store0);
            var n := |AcceptedPositions(ObserveAll(cfg, lines))|;
            && NumSamplesKey in d.store
            && d.store[NumSamplesKey] == Encode(Decimal(n))
            && Value(Decimal(n)) == n
  {
    var items := ObserveAll(cfg, lines);
    FinalStoreValues(items, store0, EstimateMapSize(cfg, lines));
    ValueOfDecimal(|AcceptedPositions(items)|);
  }

  /** The error log has one line per line of the manifest whose validity
      check raised, in manifest order, each naming the 0-based manifest index
      and the resolved path; such lines occur only with checking enabled. */
  lemma ErrorLogLines(cfg: Config, lines: seq<string>, store0: Store)
    ensures var d := CreateDataset(cfg, lines, store0);
            var idx := ErrorPositions(ObserveAll(cfg, lines));
            && |d.log| == |idx|
            && (forall k :: 0 <= k < |idx| ==>
                  && idx[k] < |lines|
                  && cfg.checkValid
                  && Classify(cfg, lines[idx[k]]).CheckRaised?
                  && d.log[k] == LogLine(idx[k], FullPath(cfg, lines[idx[k]])))
  {
    var items := ObserveAll(cfg, lines);
    var idx := ErrorPositions(items);
    var d := CreateDataset(cfg, lines, store0);
    ErrorLogItems(items, store0, EstimateMapSize(cfg, lines));
    forall k | 0 <= k < |idx|
      ensures d.log[k] == LogLine(idx[k], FullPath(cfg, lines[idx[k]]))
      ensures cfg.checkValid && Classify(cfg, lines[idx[k]]).CheckRaised?
    {
      assert items[idx[k]] == ObserveLine(cfg, lines[idx[k]]);
    }
  }

  /** The logged lines are exactly the raising lines, in manifest order. */
  lemma RaisingLines(cfg: Config, lines: seq<string>)
    ensures var idx := ErrorPositions(ObserveAll(cfg, lines));
            && (forall i :: 0 <= i < |lines| && Classify(cfg, lines[i]).CheckRaised? ==> i in idx)
            && (forall k, l :: 0 <= k < l < |idx| ==> idx[k] < idx[l])
  {
    var items := ObserveAll(cfg, lines);
    forall i | 0 <= i < |lines| && Classify(cfg, lines[i]).CheckRaised?
      ensures IsRaised(items[i])
    {
    }
  }
}

=== FILE: ingest_loop.dfy ===
/** `estimate_map_size` and `createDataset` written as
    `create_lmdb_dataset.py` writes them, one loop each with early
    `continue`s, and proved to compute the functional model. */
module IngestLoop {
  import opened Wrappers
  import opened Encoding
  import opened Numerals
  import opened Manifest
  import opened Paths
  import opened Keys
  import opened Store
  import opened Validity
  import opened Estimate
  import opened Observe
  import opened Ingest

  /** The loop of `estimate_map_size`: per line, the size of the image file
      when it exists, plus 100. */
  method SumSizes(cfg: Config, lines: seq<string>) returns (total: nat)
    ensures total == TotalSize(Probes(cfg, lines))
  {
    ghost var probes := Probes(cfg, lines);
    total := 0;
    var i := 0;
    while i < |lines|
      invariant 0 <= i <= |lines|
      invariant total == TotalSize(probes[..i])
    {
      var imagePath := JoinPath(cfg.inputPath, ParseLine(lines[i]).path);
      if cfg.env.fileExists(imagePath) {
        total := total + cfg.env.fileSize(imagePath);
      }
      total := total + 100;
      TotalSizeSnoc(probes, i);
      i := i + 1;
    }
    assert probes[..|lines|] == probes;
  }

  /** `estimate_map_size`: the summed sizes, scaled by 1.4. */
  method EstimateMapSizeLoop(cfg: Config, lines: seq<string>) returns (size: nat)
    ensures size == EstimateMapSize(cfg, lines)
  {
    var total := SumSizes(cfg, lines);
    size := total * 14 / 10;
  }

  /** The checks of one manifest line, in the loop's order, each failing
      one ending the line (`continue`): the file must exist, must load, and,
      with checking enabled, must pass the validity check without raising. */
  method Examine(cfg: Config, line: string) returns (verdict: Verdict)
    ensures verdict == Classify(cfg, line)
  {
    var entry := ParseLine(line);
    var fullImagePath := JoinPath(cfg.inputPath, entry.path);
    if !cfg.env.fileExists(fullImagePath) {
      return Missing;
    }
    var loaded := cfg.env.loadImage(fullImagePath);
    if loaded.None? {
      return LoadFailed;
    }
    var imageBin := loaded.value;
    if cfg.checkValid {
      var check := CheckImageIsValid(Some(imageBin), cfg.env.decode);
      if check.Raised? {
        return CheckRaised;
      }
      if !check.valid {
        return Invalid;
      }
    }
    return Accepted(imageBin);
  }

  /** An accepted sample is cached under the counter's keys; when the
      counter is a multiple of 1000 the cache is written and emptied; the
      counter advances. */
  method CacheSample(st: State, i: nat, imageBin: Bytes, labelText: string, ghost item: Item)
    returns (st': State)
    requires item.verdict.Accepted? && item.verdict.image == imageBin && item.labelText == labelText
    ensures st' == Step(st, i, item)
  {
    var cnt, cache, batches, store := st.cnt, st.cache, st.batches, st.store;
    cache := cache[ImageKey(cnt) := imageBin][LabelKey(cnt) := Encode(labelText)];
    if cnt % 1000 == 0 {
      store := WriteCache(store, cache);
      batches := batches + [cache];
      cache := map[];
    }
    cnt := cnt + 1;
    st' := State(cnt, cache, batches, store, st.log);
  }

  /** One pass of the ingestion loop's body over manifest line `i`: a line
      whose check raised is logged under its manifest index, an accepted
      sample is cached, and any other line changes nothing. */
  method IngestLine(cfg: Config, i: nat, line: string, st: State) returns (st': State)
    ensures st' == Step(st, i, ObserveLine(cfg, line))
  {
    var entry := ParseLine(line);
    var fullImagePath := JoinPath(cfg.inputPath, entry.path);
    var verdict := Examine(cfg, line);
    match verdict {
      case CheckRaised =>
        st' := st.(log := st.log + [LogLine(i, fullImagePath)]);
      case Accepted(imageBin) =>
        st' := CacheSample(st, i, imageBin, entry.labelText, ObserveLine(cfg, line));
      case _ =>
        st' := st;
    }
  }

  /** The run over one more item is one more step. */
  lemma RunSnoc(items: seq<Item>, i: nat, store0: Store)
    requires i < |items|
    ensures Run(items[..i + 1], store0) == Step(Run(items[..i], store0), i, items[i])
  {
    assert items[..i + 1][..i] == items[..i];
  }

  lemma FinishIsCreateDataset(cfg: Config, lines: seq<string>, store0: Store, mapSize: nat, st: State)
    requires st == Run(ObserveAll(cfg, lines), store0)
    requires mapSize == EstimateMapSize(cfg, lines)
    ensures var cache := st.cache[NumSamplesKey := Encode(Decimal(st.cnt - 1))];
            Dataset(mapSize, WriteCache(st.store, cache), st.batches + [cache], st.log)
              == CreateDataset(cfg, lines, store0)
  {
    assert Finish(mapSize, st) == CreateDataset(cfg, lines, store0);
  }

  /** The loop of `createDataset` over the whole manifest. */
  method RunLoop(cfg: Config, lines: seq<string>, store0: Store) returns (st: State)
    ensures st == Run(ObserveAll(cfg, lines), store0)
  {
    ghost var items := ObserveAll(cfg, lines);
    st := Init(store0);
    var i := 0;
    while i < |lines|
      invariant 0 <= i <= |lines|
      invariant st == Run(items[..i], store0)
    {
      RunSnoc(items, i, store0);
      assert items[i] == ObserveLine(cfg, lines[i]);
      st := IngestLine(cfg, i, lines[i], st);
      i := i + 1;
    }
    assert items[..|lines|] == items;
  }

  /** `createDataset`: the map size is estimated, the loop runs, then the
      count record joins the cache and the cache is written. */
  method CreateDatasetLoop(cfg: Config, lines: seq<string>, store0: Store) returns (d: Dataset)
    ensures d == CreateDataset(cfg, lines, store0)
  {
    var mapSize := EstimateMapSizeLoop(cfg, lines);
    var st := RunLoop(cfg, lines, store0);
    var cache := st.cache[NumSamplesKey := Encode(Decimal(st.cnt - 1))];
    d := Dataset(mapSize, WriteCache(st.store, cache), st.batches + [cache], st.log);
    FinishIsCreateDataset(cfg, lines, store0, mapSize, st);
  }
}

=== FILE: keys.dfy ===
/** The store's key schema: `image-%09d`, `label-%09d` and `num-samples`.
    Keys are named symbolically; `KeyBytes` is the byte string
    `create_lmdb_dataset.py` builds for each. */
module Keys {
  import opened Encoding
  import opened Numerals

  const KeyWidth: nat := 9

  datatype Key = ImageKey(n: nat) | LabelKey(n: nat) | NumSamplesKey

  /** `f"image-{n:09d}"`, `f"label-{n:09d}"`, `"num-samples"`. */
  function KeyText(k: Key): string {
    match k
    case ImageKey(n) => "image-" + ZeroPadded(n, KeyWidth)
    case LabelKey(n) => "label-" + ZeroPadded(n, KeyWidth)
    case NumSamplesKey => "num-samples"
  }

  /** `KeyText(k).encode()`. */
  function KeyBytes(k: Key): Bytes {
    Encode(KeyText(k))
  }

  lemma DigitsAreAscii(s: string)
    requires AllDigits(s)
    ensures IsAscii(s)
  {
  }

  lemma KeyTextIsAscii(k: Key)
    ensures IsAscii(KeyText(k))
  {
    if !k.NumSamplesKey? {
      DigitsAreAscii(ZeroPadded(k.n, KeyWidth));
    }
  }

  /** Distinct keys have distinct byte strings: the key formats are injective
      in the counter, and image keys, label keys and the count key never
      coincide, so no record can overwrite another. */
  lemma KeyBytesInjective(a: Key, b: Key)
    ensures KeyBytes(a) == KeyBytes(b) <==> a == b
  {
    KeyTextIsAscii(a);
    KeyTextIsAscii(b);
    EncodeAsciiInjective(KeyText(a), KeyText(b));
    var ta, tb := KeyText(a), KeyText(b);
    if ta == tb {
      assert ta[0] == tb[0];
      if (a.ImageKey? && b.ImageKey?) || (a.LabelKey? && b.LabelKey?) {
        assert ZeroPadded(a.n, KeyWidth) == ta[6..] == tb[6..] == ZeroPadded(b.n, KeyWidth);
        ZeroPaddedInjective(a.n, b.n, KeyWidth);
      }
    }
  }

  /** Every counter below 10^9 is written with exactly nine digits, so its
      image and label keys are fifteen bytes long. */
  lemma KeyLength(n: nat)
    requires n < 1000000000
    ensures |KeyBytes(ImageKey(n))| == 15 && |KeyBytes(LabelKey(n))| == 15
  {
    assert Pow10(KeyWidth) == 1000000000;
    ZeroPaddedExactWidth(n, KeyWidth);
    KeyTextIsAscii(ImageKey(n));
    KeyTextIsAscii(LabelKey(n));
    EncodeAscii(KeyText(ImageKey(n)));
    EncodeAscii(KeyText(LabelKey(n)));
  }
}

=== FILE: manifest.dfy ===
/** One manifest line: `<relative-image-path> <label with possible spaces>`. */
module Manifest {
  import opened Text

  datatype Entry = Entry(path: string, labelText: string)

  /** The line with every leading and trailing newline removed. */
  function Stripped(line: string): string {
    Strip(line, '\n')
  }

  /** Split the stripped line on single spaces; the first piece is the image
      path and the remaining pieces, joined again by single spaces, the label. */
  function ParseLine(line: string): Entry {
    var parts := Split(Stripped(line), ' ');
    Entry(parts[0], Join(parts[1..], ' '))
  }

  /** The parse loses nothing: with a space present, path, one space and label
      give back the stripped line, the path holding no space (so the label
      keeps any further spaces verbatim); without one, the path is the whole
      stripped line and the label is empty. */
  lemma ParseLineSplit(line: string)
    ensures var t := Stripped(line);
            var e := ParseLine(line);
            && ' ' !in e.path
            && (' ' in t ==> e.path + " " + e.labelText == t)
            && (' ' !in t ==> e.path == t && e.labelText == "")
  {
    var t := Stripped(line);
    var parts := Split(t, ' ');
    JoinSplit(t, ' ');
    if |parts| == 1 {
      assert t == parts[0];
    } else {
      assert t == parts[0] + [' '] + Join(parts[1..], ' ');
      assert t[|parts[0]|] == ' ';
    }
  }

  /** Conversely, a path without spaces and any label written as
      `path + " " + label` on a line parse back to exactly that entry. */
  lemma ParseLineOfEntry(path: string, labelText: string)
    requires ' ' !in path && '\n' !in path && '\n' !in labelText
    ensures ParseLine(path + " " + labelText + "\n") == Entry(path, labelText)
  {
    var line := path + " " + labelText + "\n";
    var t := Stripped(line);
    var body := path + " " + labelText;
    assert line == body + "\n";
    assert '\n' !in body by {
      forall k | 0 <= k < |body| ensures body[k] != '\n' {
        if k < |path| {
          assert body[k] == path[k];
        } else if k > |path| {
          assert body[k] == labelText[k - |path| - 1];
        }
      }
    }
    StripSingleTrailing(body);
    assert t == body;
    ParseLineSplit(line);
    var e := ParseLine(line);
    assert ' ' in t by { assert t[|path|] == ' '; }
    assert e.path + " " + e.labelText == path + " " + labelText;
    PrefixBeforeSpace(e.path, e.labelText, path, labelText);
  }

  lemma StripSingleTrailing(body: string)
    requires '\n' !in body && |body| > 0
    ensures Strip(body + "\n", '\n') == body
  {
    var s := body + "\n";
    var r := Strip(s, '\n');
    var i, j :| 0 <= i <= j <= |s| && r == s[i..j]
                && (forall k :: 0 <= k < i ==> s[k] == '\n')
                && (forall k :: j <= k < |s| ==> s[k] == '\n');
    assert s[0] == body[0];
    assert i == 0;
    assert s[|s| - 2] == body[|body| - 1];
    assert j >= |s| - 1;
  }

  lemma PrefixBeforeSpace(p1: string, t1: string, p2: string, t2: string)
    requires ' ' !in p1 && ' ' !in p2
    requires p1 + " " + t1 == p2 + " " + t2
    ensures p1 == p2 && t1 == t2
  {
    var s := p1 + " " + t1;
    FirstIndexAfter(p1, t1, ' ');
    FirstIndexAfter(p2, t2, ' ');
    assert p1 == s[..|p1|] == p2;
    assert t1 == s[|p1| + 1..] == t2;
  }

  /** Position of the first `c` in `s`, or `|s|` when there is none. */
  function FirstIndex(s: string, c: char): (i: nat)
    ensures i <= |s|
    decreases |s|
  {
    if |s| == 0 then 0 else if s[0] == c then 0 else 1 + FirstIndex(s[1..], c)
  }

  lemma {:induction false} FirstIndexAfter(p: string, t: string, c: char)
    requires c !in p
    ensures FirstIndex(p + [c] + t, c) == |p|
    decreases |p|
  {
    var s := p + [c] + t;
    if |p| > 0 {
      assert s[1..] == p[1..] + [c] + t;
      FirstIndexAfter(p[1..], t, c);
    }
  }
}

=== FILE: numerals.dfy ===
/** Decimal numerals: Python's `str(n)` and `f"{n:0{w}d}"` for non-negative
    `n`, and the value a digit string denotes. */
module Numerals {

  predicate IsDigit(c: char) {
    '0' <= c <= '9'
  }

  predicate AllDigits(s: string) {
    forall k :: 0 <= k < |s| ==> IsDigit(s[k])
  }

  function DigitChar(d: nat): (c: char)
    requires d < 10
    ensures IsDigit(c) && c as int - '0' as int == d
  {
    (48 + d) as char
  }

  function Pow10(k: nat): (r: nat)
    ensures r >= 1
  {
    if k == 0 then 1 else 10 * Pow10(k - 1)
  }

  /** The number a digit string denotes, most significant digit first;
      leading zeros are allowed. */
  function Value(s: string): nat
    requires AllDigits(s)
    decreases |s|
  {
    if |s| == 0 then 0
    else 10 * Value(s[..|s| - 1]) + (s[|s| - 1] as int - '0' as int)
  }

  /** `str(n)`: the canonical decimal numeral, without leading zeros. */
  function Decimal(n: nat): (s: string)
    ensures |s| >= 1 && AllDigits(s)
    ensures s[0] == '0' ==> n == 0
    decreases n
  {
    if n < 10 then [DigitChar(n)] else Decimal(n / 10) + [DigitChar(n % 10)]
  }

  function Zeros(k: nat): (s: string)
    ensures |s| == k && AllDigits(s)
    ensures forall i :: 0 <= i < k ==> s[i] == '0'
  {
    seq(k, _ => '0')
  }

  /** `f"{n:0{width}d}"`: `str(n)` left-filled with zeros up to `width`
      characters; a longer numeral is kept whole, never cut. */
  function ZeroPadded(n: nat, width: nat): (s: string)
    ensures AllDigits(s)
    ensures |s| >= width
  {
    var d := Decimal(n);
    if |d| >= width then d else Zeros(width - |d|) + d
  }

  lemma {:induction false} ValueOfDecimal(n: nat)
    ensures Value(Decimal(n)) == n
    decreases n
  {
    if n >= 10 {
      var s := Decimal(n);
      ValueOfDecimal(n / 10);
      assert s[..|s| - 1] == Decimal(n / 10);
    }
  }

  lemma {:induction false} ValueLeadingZero(s: string)
    requires AllDigits(s)
    ensures Value(['0'] + s) == Value(s)
    decreases |s|
  {
    if |s| > 0 {
      var t := ['0'] + s;
      assert t[..|t| - 1] == ['0'] + s[..|s| - 1];
      ValueLeadingZero(s[..|s| - 1]);
    }
  }

  lemma {:induction false} ValueLeadingZeros(k: nat, s: string)
    requires AllDigits(s)
    ensures Value(Zeros(k) + s) == Value(s)
    decreases k
  {
    if k == 0 {
      assert Zeros(k) + s == s;
    } else {
      assert Zeros(k) + s == ['0'] + (Zeros(k - 1) + s);
      ValueLeadingZeros(k - 1, s);
      ValueLeadingZero(Zeros(k - 1) + s);
    }
  }

  /** Zero padding preserves the number denoted. */
  lemma ValueOfZeroPadded(n: nat, width: nat)
    ensures Value(ZeroPadded(n, width)) == n
  {
    var d := Decimal(n);
    ValueOfDecimal(n);
    if |d| < width {
      assert ZeroPadded(n, width) == Zeros(width - |d|) + d;
      ValueLeadingZeros(width - |d|, d);
    } else {
      assert ZeroPadded(n, width) == d;
    }
  }

  /** Hence distinct numbers get distinct padded numerals. */
  lemma ZeroPaddedInjective(a: nat, b: nat, width: nat)
    ensures ZeroPadded(a, width) == ZeroPadded(b, width) <==> a == b
  {
    ValueOfZeroPadded(a, width);
    ValueOfZeroPadded(b, width);
  }

  lemma {:induction false} DecimalLength(n: nat, width: nat)
    requires width >= 1 && n < Pow10(width)
    ensures |Decimal(n)| <= width
    decreases n
  {
    if n >= 10 {
      assert width >= 2;
      assert n / 10 < Pow10(width - 1);
      DecimalLength(n / 10, width - 1);
    }
  }

  /** A number below `10^width` is written with exactly `width` digits. */
  lemma ZeroPaddedExactWidth(n: nat, width: nat)
    requires width >= 1 && n < Pow10(width)
    ensures |ZeroPadded(n, width)| == width
  {
    DecimalLength(n, width);
  }
}

=== FILE: observe.dfy ===
/** What the loop of `createDataset` learns about one manifest line before it
    touches the counter: the parsed entry, the resolved path and the verdict
    of the existence, loading and validity steps. File system calls, image
    loading and decoding are oracles in `Env`. */
module Observe {
  import opened Wrappers
  import opened Encoding
  import opened Manifest
  import opened Paths
  import opened Validity
  import opened Estimate

  /** The outside world as seen by the run, for one fixed file system:
      `fileExists` and `fileSize` answer `os.path.exists` and
      `os.path.getsize`; `loadImage` is `load_clean_image`, `None` when it
      raises; `decode` is the grayscale decode inside the validity check. */
  datatype Env = Env(
    fileExists: string -> bool,
    fileSize: string -> nat,
    loadImage: string -> Option<Bytes>,
    decode: Bytes -> Decoding)

  datatype Config = Config(inputPath: string, checkValid: bool, env: Env)

  /** What happens to one manifest entry. */
  datatype Verdict = Missing | LoadFailed | Invalid | CheckRaised | Accepted(image: Bytes)

  function FullPath(cfg: Config, line: string): string {
    JoinPath(cfg.inputPath, ParseLine(line).path)
  }

  /** An entry is accepted exactly when its file exists, loading succeeds and,
      with checking enabled, the checker returns true without raising; with
      checking disabled the checker is never consulted. The check raising is
      its own outcome, and a missing file is reported before anything else. */
  function Classify(cfg: Config, line: string): (v: Verdict)
    ensures var full := FullPath(cfg, line);
            var loaded := cfg.env.loadImage(full);
            var check := CheckImageIsValid(loaded, cfg.env.decode);
            && (v.Accepted? <==>
                  cfg.env.fileExists(full) && loaded.Some?
                  && (cfg.checkValid ==> check.Returned? && check.valid))
            && (v.Accepted? ==> loaded == Some(v.image))
            && (v.CheckRaised? <==>
                  cfg.env.fileExists(full) && loaded.Some? && cfg.checkValid && check.Raised?)
            && (v.Missing? <==> !cfg.env.fileExists(full))
  {
    var full := FullPath(cfg, line);
    if !cfg.env.fileExists(full) then Missing
    else
      match cfg.env.loadImage(full)
      case None => LoadFailed
      case Some(bin) =>
        if !cfg.checkValid then Accepted(bin)
        else
          match CheckImageIsValid(Some(bin), cfg.env.decode)
          case Raised => CheckRaised
          case Returned(valid) => if valid then Accepted(bin) else Invalid
  }

  /** One manifest line as the loop sees it. */
  datatype Item = Item(verdict: Verdict, labelText: string, fullPath: string)

  function ObserveLine(cfg: Config, line: string): Item {
    Item(Classify(cfg, line), ParseLine(line).labelText, FullPath(cfg, line))
  }

  function ObserveAll(cfg: Config, lines: seq<string>): (items: seq<Item>)
    ensures |items| == |lines|
    ensures forall i :: 0 <= i < |lines| ==> items[i] == ObserveLine(cfg, lines[i])
  {
    seq(|lines|, i requires 0 <= i < |lines| => ObserveLine(cfg, lines[i]))
  }

  function ProbeLine(cfg: Config, line: string): Probe {
    var full := FullPath(cfg, line);
    Probe(cfg.env.fileExists(full), cfg.env.fileSize(full))
  }

  function Probes(cfg: Config, lines: seq<string>): (probes: seq<Probe>)
    ensures |probes| == |lines|
    ensures forall i :: 0 <= i < |lines| ==> probes[i] == ProbeLine(cfg, lines[i])
  {
    seq(|lines|, i requires 0 <= i < |lines| => ProbeLine(cfg, lines[i]))
  }

  /** `estimate_map_size`: one probe per manifest line, on the same path the
      loop resolves; at least 140 per line in the integer model of the
      scaling by 1.4. */
  function EstimateMapSize(cfg: Config, lines: seq<string>): (size: nat)
    ensures size >= 140 * |lines|
  {
    EstimateBounds(Probes(cfg, lines));
    EstimateFromProbes(Probes(cfg, lines))
  }
}

=== FILE: paths.dfy ===
/** POSIX `os.path.join(a, b)` for two components. */
module Paths {

  /** An absolute `b` replaces `a`; otherwise `b` is appended after a single
      `/`, which is not doubled when `a` is empty or already ends in one. */
  function JoinPath(a: string, b: string): (r: string)
    ensures |b| > 0 && b[0] == '/' ==> r == b
    ensures |r| >= |b| && r[|r| - |b|..] == b
    ensures !(|b| > 0 && b[0] == '/') ==> |r| >= |a| && r[..|a|] == a
    ensures |a| == 0 ==> r == b
    ensures !(|b| > 0 && b[0] == '/') ==> |r| >= |a| + |b|
    ensures !(|b| > 0 && b[0] == '/') && |a| > 0 && a[|a| - 1] == '/' ==>
              |r| == |a| + |b|
    ensures !(|b| > 0 && b[0] == '/') && |a| > 0 ==>
              |r| <= |a| + |b| + 1 && r[|r| - |b| - 1] == '/'
  {
    if |b| > 0 && b[0] == '/' then b
    else if |a| == 0 || a[|a| - 1] == '/' then a + b
    else a + "/" + b
  }
}

=== FILE: scenarios.dfy ===
/** Concrete manifests and what the ingestion makes of them. */
module Scenarios {
  import opened Encoding
  import opened Numerals
  import opened Manifest
  import opened Keys
  import opened Store
  import opened Observe
  import opened Filters
  import opened Ingest

  /** The keys of the first sample, as LMDB sees them. */
  lemma FirstKeys()
    ensures KeyText(ImageKey(1)) == "image-000000001"
    ensures KeyText(LabelKey(1)) == "label-000000001"
    ensures KeyText(NumSamplesKey) == "num-samples"
  {
    assert Decimal(1) == "1";
    assert ZeroPadded(1, KeyWidth) == Zeros(8) + "1";
    assert Zeros(8) + "1" == "000000001";
  }

  /** A label keeps its inner spaces, doubled ones included. */
  lemma LabelWithSpaces()
    ensures ParseLine("w.png a  b\n") == Entry("w.png", "a  b")
  {
    var path, labelText := "w.png", "a  b";
    assert path[0] != ' ' && path[1] != ' ' && path[2] != ' ' && path[3] != ' ' && path[4] != ' ';
    assert labelText[0] != '\n' && labelText[1] != '\n' && labelText[2] != '\n' && labelText[3] != '\n';
    ParseLineOfEntry(path, labelText);
    assert path + " " + labelText + "\n" == "w.png a  b\n";
  }

  /** The indices of the accepted items among three, the middle one not. */
  lemma AcceptedOfThree(items: seq<Item>)
    requires |items| == 3
    requires items[0].verdict.Accepted? && !items[1].verdict.Accepted? && items[2].verdict.Accepted?
    ensures AcceptedPositions(items) == [0, 2]
  {
    var p := IsAccepted;
    assert items[..0] == [];
    PositionsSnoc(items, 0, p);
    PositionsSnoc(items, 1, p);
    PositionsSnoc(items, 2, p);
    assert items[..3] == items;
  }

  /** A skipped line leaves no gap: of three lines with the middle one
      rejected, the first is sample 1, the third is sample 2, and the count
      record says 2. */
  lemma SkippedLineLeavesNoGap(cfg: Config, l0: string, l1: string, l2: string, store0: Store)
    requires Classify(cfg, l0).Accepted?
    requires !Classify(cfg, l1).Accepted?
    requires Classify(cfg, l2).Accepted?
    ensures var d := CreateDataset(cfg, [l0, l1, l2], store0);
            && ImageKey(1) in d.store && d.store[ImageKey(1)] == Classify(cfg, l0).image
            && LabelKey(1) in d.store && d.store[LabelKey(1)] == Encode(ParseLine(l0).labelText)
            && ImageKey(2) in d.store && d.store[ImageKey(2)] == Classify(cfg, l2).image
            && LabelKey(2) in d.store && d.store[LabelKey(2)] == Encode(ParseLine(l2).labelText)
            && NumSamplesKey in d.store && d.store[NumSamplesKey] == Encode("2")
            && (ImageKey(3) in d.store <==> ImageKey(3) in store0)
  {
    var lines := [l0, l1, l2];
    var items := ObserveAll(cfg, lines);
    TwoOfThree(cfg, l0, l1, l2);
    SkippedLineSamples(cfg, l0, l1, l2, store0);
    KeysBeyondCount(cfg, lines, store0, 3);
    CountRecord(cfg, lines, store0);
    assert Decimal(2) == "2";
  }

  /** The accepted positions of the three lines are the first and the third. */
  lemma TwoOfThree(cfg: Config, l0: string, l1: string, l2: string)
    requires Classify(cfg, l0).Accepted?
    requires !Classify(cfg, l1).Accepted?
    requires Classify(cfg, l2).Accepted?
    ensures AcceptedPositions(ObserveAll(cfg, [l0, l1, l2])) == [0, 2]
  {
    var lines := [l0, l1, l2];
    VerdictAt(cfg, lines, 0);
    VerdictAt(cfg, lines, 1);
    VerdictAt(cfg, lines, 2);
    AcceptedOfThree(ObserveAll(cfg, lines));
  }

  lemma VerdictAt(cfg: Config, lines: seq<string>, i: nat)
    requires i < |lines|
    ensures i < |ObserveAll(cfg, lines)| && ObserveAll(cfg, lines)[i].verdict == Classify(cfg, lines[i])
  {
  }

  /** The two accepted lines are samples 1 and 2. */
  lemma SkippedLineSamples(cfg: Config, l0: string, l1: string, l2: string, store0: Store)
    requires Classify(cfg, l0).Accepted? && Classify(cfg, l2).Accepted?
    requires AcceptedPositions(ObserveAll(cfg, [l0, l1, l2])) == [0, 2]
    ensures var d := CreateDataset(cfg, [l0, l1, l2], store0);
            && ImageKey(1) in d.store && d.store[ImageKey(1)] == Classify(cfg, l0).image
            && LabelKey(1) in d.store && d.store[LabelKey(1)] == Encode(ParseLine(l0).labelText)
            && ImageKey(2) in d.store && d.store[ImageKey(2)] == Classify(cfg, l2).image
            && LabelKey(2) in d.store && d.store[LabelKey(2)] == Encode(ParseLine(l2).labelText)
  {
    var lines := [l0, l1, l2];
    SamplesFollowManifest(cfg, lines, store0);
    assert lines[0] == l0 && lines[2] == l2;
  }

  /** When every line is accepted the count record is the number of lines. */
  lemma AllAccepted(cfg: Config, lines: seq<string>, store0: Store)
    requires forall i :: 0 <= i < |lines| ==> Classify(cfg, lines[i]).Accepted?
    ensures var d := CreateDataset(cfg, lines, store0);
            NumSamplesKey in d.store && d.store[NumSamplesKey] == Encode(Decimal(|lines|))
  {
    AllLinesAccepted(cfg, lines);
    CountRecord(cfg, lines, store0);
  }

  /** A thousand accepted lines: one periodic flush of all 2000 entries, then
      a final write holding only the count record. */
  lemma ThousandSamples(cfg: Config, lines: seq<string>, store0: Store)
    requires |lines| == 1000
    requires forall i :: 0 <= i < |lines| ==> Classify(cfg, lines[i]).Accepted?
    ensures var d := CreateDataset(cfg, lines, store0);
            && |d.flushes| == 2
            && |d.flushes[0]| == 2000
            && |d.flushes[1]| == 1 && NumSamplesKey in d.flushes[1]
  {
    AllLinesAccepted(cfg, lines);
    FlushBatches(ObserveAll(cfg, lines), store0, EstimateMapSize(cfg, lines));
  }
}

=== FILE: store.dfy ===
/** The key-value store, and `writeCache`: one write transaction putting
    every entry of the cache. The model keys the store by `Key`; `ByteStore`
    gives the map from byte keys to byte values that the engine holds. */
module Store {
  import opened Encoding
  import opened Keys

  type Store = map<Key, Bytes>

  /** Every cached key takes its cached value; every other key keeps its old
      value; no key disappears. */
  function WriteCache(store: Store, cache: Store): (r: Store)
    ensures r.Keys == store.Keys + cache.Keys
    ensures forall k :: k in cache ==> r[k] == cache[k]
    ensures forall k :: k in store && k !in cache ==> r[k] == store[k]
  {
    store + cache
  }

  /** The store after the batches have been written in order. */
  function WriteAll(store: Store, batches: seq<Store>): Store
    decreases |batches|
  {
    if |batches| == 0 then store
    else WriteCache(WriteAll(store, batches[..|batches| - 1]), batches[|batches| - 1])
  }

  /** `m` with every key `k` renamed to `f(k)`; a map because `f` is
      injective on the keys of `m`. */
  function Rekey<K, K2, V>(m: map<K, V>, f: K -> K2): (r: map<K2, V>)
    requires forall a, b :: a in m && b in m && f(a) == f(b) ==> a == b
    ensures r.Keys == set k | k in m :: f(k)
    ensures forall k :: k in m ==> r[f(k)] == m[k]
  {
    map k | k in m :: f(k) := m[k]
  }

  lemma RekeyUnion<K, K2, V>(m: map<K, V>, c: map<K, V>, f: K -> K2)
    requires forall a, b :: f(a) == f(b) ==> a == b
    ensures Rekey(m + c, f) == Rekey(m, f) + Rekey(c, f)
  {
    var lhs := Rekey(m + c, f);
    var rm, rc := Rekey(m, f), Rekey(c, f);
    var rhs := rm + rc;
    forall b | b in lhs
      ensures b in rhs && lhs[b] == rhs[b]
    {
      var k :| k in m + c && b == f(k);
      if k in c {
        assert b in rc;
      } else {
        assert b in rm;
        assert forall k' :: k' in c ==> f(k') != b;
      }
    }
    forall b | b in rhs
      ensures b in lhs
    {
      if b in rc {
        var k :| k in c && b == f(k);
        assert k in m + c;
      } else {
        var k :| k in m && b == f(k);
        assert k in m + c;
      }
    }
    assert lhs.Keys == rhs.Keys;
  }

  lemma KeyBytesInjectiveAll()
    ensures forall a, b :: KeyBytes(a) == KeyBytes(b) ==> a == b
  {
    forall a, b | KeyBytes(a) == KeyBytes(b)
      ensures a == b
    {
      KeyBytesInjective(a, b);
    }
  }

  /** The store as the engine sees it: each key replaced by its bytes. This
      is a map only because `KeyBytes` is injective. */
  function ByteStore(store: Store): (r: map<Bytes, Bytes>)
    ensures r.Keys == set k | k in store :: KeyBytes(k)
    ensures forall k :: k in store ==> r[KeyBytes(k)] == store[k]
  {
    KeyBytesInjectiveAll();
    Rekey(store, KeyBytes)
  }

  /** Writing the cache by key and then encoding the keys is the same as
      writing the encoded cache into the encoded store. */
  lemma ByteStoreWriteCache(store: Store, cache: Store)
    ensures ByteStore(WriteCache(store, cache)) == ByteStore(store) + ByteStore(cache)
  {
    KeyBytesInjectiveAll();
    RekeyUnion(store, cache, KeyBytes);
  }
}

=== FILE: text.dfy ===
/** Python's `str.strip(c)`, `str.split(sep)` and `sep.join(parts)` for a
    single-character argument. */
module Text {

  /** Number of leading copies of `c` in `s`. */
  function LeadingRun(s: string, c: char): (n: nat)
    ensures n <= |s|
    ensures forall k :: 0 <= k < n ==> s[k] == c
    ensures n == |s| || s[n] != c
    decreases |s|
  {
    if |s| > 0 && s[0] == c then 1 + LeadingRun(s[1..], c) else 0
  }

  /** Number of trailing copies of `c` in `s`. */
  function TrailingRun(s: string, c: char): (n: nat)
    ensures n <= |s|
    ensures forall k :: |s| - n <= k < |s| ==> s[k] == c
    ensures n == |s| || s[|s| - 1 - n] != c
    decreases |s|
  {
    if |s| > 0 && s[|s| - 1] == c then 1 + TrailingRun(s[..|s| - 1], c) else 0
  }

  /** `s.strip(c)`: remove every leading and every trailing `c`. The result is
      a slice of `s` outside which there is only `c`, and it neither starts
      nor ends with `c`. */
  function Strip(s: string, c: char): (r: string)
    ensures exists i, j :: 0 <= i <= j <= |s| && r == s[i..j]
                           && (forall k :: 0 <= k < i ==> s[k] == c)
                           && (forall k :: j <= k < |s| ==> s[k] == c)
    ensures |r| == 0 || (r[0] != c && r[|r| - 1] != c)
  {
    var i := LeadingRun(s, c);
    var j := |s| - TrailingRun(s[i..], c);
    assert forall k :: j <= k < |s| ==> s[k] == s[i..][k - i];
    s[i..j]
  }

  /** `s.split(sep)`: the maximal pieces between occurrences of `sep`; two
      adjacent separators give an empty piece. There is always one piece. */
  function Split(s: string, sep: char): (parts: seq<string>)
    ensures |parts| >= 1
    ensures forall k :: 0 <= k < |parts| ==> sep !in parts[k]
    decreases |s|
  {
    if |s| == 0 then [""]
    else if s[0] == sep then [""] + Split(s[1..], sep)
    else
      var rest := Split(s[1..], sep);
      [[s[0]] + rest[0]] + rest[1..]
  }

  /** `sep.join(parts)`. */
  function Join(parts: seq<string>, sep: char): string
    decreases |parts|
  {
    if |parts| == 0 then ""
    else if |parts| == 1 then parts[0]
    else parts[0] + [sep] + Join(parts[1..], sep)
  }

  /** Joining the pieces of a split gives back the original string. */
  lemma {:induction false} JoinSplit(s: string, sep: char)
    ensures Join(Split(s, sep), sep) == s
    decreases |s|
  {
    if |s| == 0 {
    } else if s[0] == sep {
      var rest := Split(s[1..], sep);
      JoinSplit(s[1..], sep);
      assert ([""] + rest)[1..] == rest;
      assert s == [sep] + s[1..];
    } else {
      var rest := Split(s[1..], sep);
      JoinSplit(s[1..], sep);
      var parts := [[s[0]] + rest[0]] + rest[1..];
      if |rest| == 1 {
        assert s == [s[0]] + s[1..];
      } else {
        assert parts[1..] == rest[1..];
        assert s == [s[0]] + s[1..];
      }
    }
  }

  /** Splitting `a + t` where `a` holds no separator glues `a` onto the first
      piece of `t`. */
  lemma {:induction false} SplitPrefix(a: string, t: string, sep: char)
    requires sep !in a
    ensures var p := Split(t, sep);
            Split(a + t, sep) == [a + p[0]] + p[1..]
    decreases |a|
  {
    var p := Split(t, sep);
    if |a| == 0 {
      assert a == [];
      assert a + t == t;
      assert a + p[0] == p[0];
      assert [p[0]] + p[1..] == p;
    } else {
      SplitPrefix(a[1..], t, sep);
      var rest := Split(a[1..] + t, sep);
      assert rest == [a[1..] + p[0]] + p[1..];
      assert (a + t)[0] == a[0] && a[0] != sep;
      assert (a + t)[1..] == a[1..] + t;
      assert Split(a + t, sep) == [[a[0]] + rest[0]] + rest[1..];
      assert [a[0]] + (a[1..] + p[0]) == a + p[0];
    }
  }

  /** The converse round trip: pieces free of the separator are recovered by
      splitting their join. */
  lemma {:induction false} SplitJoin(parts: seq<string>, sep: char)
    requires |parts| >= 1
    requires forall k :: 0 <= k < |parts| ==> sep !in parts[k]
    ensures Split(Join(parts, sep), sep) == parts
    decreases |parts|
  {
    if |parts| == 1 {
      SplitPrefix(parts[0], "", sep);
      assert parts[0] + "" == parts[0];
    } else {
      var tail := Join(parts[1..], sep);
      SplitJoin(parts[1..], sep);
      assert Split([sep] + tail, sep) == [""] + parts[1..];
      SplitPrefix(parts[0], [sep] + tail, sep);
      assert parts[0] + [sep] + tail == parts[0] + ([sep] + tail);
      assert parts[0] + "" == parts[0];
      assert parts == [parts[0]] + parts[1..];
    }
  }
}

=== FILE: validity.dfy ===
/** `checkImageIsValid`, with the grayscale decode as an oracle. */
module Validity {
  import opened Wrappers
  import opened Encoding

  datatype Dims = Dims(height: nat, width: nat)

  /** What the decoder does with a byte buffer: it raises, or it returns the
      decoded raster's dimensions, or `None` when it cannot decode. */
  datatype Decoding = DecodeRaised | Decoded(image: Option<Dims>)

  /** The checker either raises or returns a truth value. */
  datatype CheckResult = Raised | Returned(valid: bool)

  /** The image is valid exactly when there is a buffer, the decoder decodes
      it without raising, and neither dimension is zero; the checker raises
      exactly when the decoder does. */
  function CheckImageIsValid(imageBin: Option<Bytes>, decode: Bytes -> Decoding): (r: CheckResult)
    ensures r.Returned? && r.valid <==>
              imageBin.Some? && decode(imageBin.value).Decoded? && decode(imageBin.value).image.Some?
              && decode(imageBin.value).image.value.height > 0 && decode(imageBin.value).image.value.width > 0
    ensures r.Raised? <==> imageBin.Some? && decode(imageBin.value).DecodeRaised?
  {
    match imageBin
    case None => Returned(false)
    case Some(bin) =>
      match decode(bin)
      case DecodeRaised => Raised
      case Decoded(None) => Returned(false)
      case Decoded(Some(dims)) =>
        if dims.height == 0 || dims.width == 0 then Returned(false) else Returned(true)
  }
}

=== FILE: wrappers.dfy ===
/** The optional-value datatype used wherever `create_lmdb_dataset.py`
    may hand back `None` or may raise instead of producing a value. */
module Wrappers {

  datatype Option<+T> = None | Some(value: T)
}
